=== FILE: README.md ===
# HBNB console command handlers in Dafny

This project models the command interpreter of the HBNB ("AirBnB clone")
console: the `HBNBCommand` class in `console.py`. It is a line-oriented
interpreter built on Python's `cmd.Cmd` that creates, shows, lists,
updates and destroys model objects. The objects are kept in a store keyed
`"<ClassName>.<id>"`.

Each handler is a pure function. It takes the store and the argument text
`cmd.Cmd` passes after the command word. It returns an `Outcome` with four
parts:

- the lines printed;
- the store afterwards;
- whether the store was saved to its JSON file;
- whether the read-eval loop ends.

The modules:

- `Optional` (`optional.dfy`) is the `Option` type.
- `PyText` (`pytext.dfy`) gives exact models of the three Python string
  splits the handlers use: `s.split()`, `s.split(maxsplit=3)` and
  `s.split(c)` for one character. It also proves their round trips and
  shape facts.
- `DottedCall` (`dotted.dfy`) recognises the dotted form `Class.method(args)`.
  It is the regular expression `^(\w*)\.(\w+)(?:\(([^)]*)\))` written out
  by hand. The module proves the recogniser sound and complete.
- `Console` (`console.dfy`) holds the handlers, the dispatcher and `default`.
- `ConsoleFacts` (`console_facts.dfy`) holds the properties that relate
  handlers to one another, to their argument text, and to the dotted form.

Three things the handlers depend on become parameters:

- the id that `uuid4` would produce for a new object (`id`);
- the order in which the store's dictionary yields its entries (`order`,
  constrained by `Enumerates`);
- the printed form of an object. An object is printed as the item
  `Shown(key, obj)`, not as its `__str__` text. The class that `__str__`
  prints comes from the key and the id from the object's `id` attribute;
  the two ids differ after `update Class id id "x"`.

Where the code differs from the usual description of this console (a
`count` verb, a dictionary form of `update`, `Class.show(id)` passing its
id, `create` limited to six classes), the model follows the code:

- A dotted call `Class.method(args)` runs `method Class` and drops the
  parenthesised arguments. So `User.show("1234")` reports the id as
  missing (`DottedShowNeverFinds`, `DottedShowExample`).
- `create` accepts `BaseModel` as well as the six model classes.
- There is no `count` command.
- There is no dictionary form of `update`.

## Model

| member | source | states |
|---|---|---|
| Console.IsClassName | console.py:23-31 | The class check: the seven names compared whole (its agreement with the class list is `ClassTableHasSeven`) |
| Console.DoCreate | console.py:50-68 | An empty argument prints the class-name message and an argument that is not one of the seven class names (compared whole) prints the class message, each with nothing else happening; a known class adds exactly one new entry `Class.id` holding a new object with that id, saves, prints the id, and grows the store by one |
| Console.DoShow | console.py:70-88 | Never changes or saves the store and prints one line; each of the four messages is printed exactly when its check is the first to fail (empty, unknown class, missing id, absent key); otherwise it prints the stored object under the first two tokens |
| Console.DoDestroy | console.py:90-112 | The same four messages under the same conditions as `show`; on an error the store is unchanged and not saved; it prints nothing exactly when the object is found, and then it removes exactly that key, keeps every other entry and saves |
| Console.ClassPart | console.py:128-129 | `key.split('.')[0]` is the prefix of the key before its first dot, holding no dot |
| Console.Selected | console.py:127-130 | A key is selected exactly when it is enumerated and the text before its first dot equals the class name |
| Console.ShowEach | console.py:123-124 | One printed object per key, in key order |
| Console.DoAll | console.py:114-134 | Never changes or saves the store; a non-empty argument that is not a class name prints only the class message; no argument prints every stored object once, in the store's order; a class name prints the objects of the selected keys in the order `Selected` keeps them, which is the store's order (the body of `Selected` filters `order` front to back; its contract states only which keys are kept) |
| Console.SelectedStored | console.py:127-130 | Every key the filter keeps from stored keys is stored, so `all Class` can look each one up |
| Console.EnumerationLength | console.py:123-124 | An enumeration of the store is as long as the store, so `all` prints one line per object |
| Console.DistinctLength | console.py:127-130 | A sequence without repeats is as long as the set of its elements |
| Console.QuotedValue | console.py:170-171 | An accepted value text ends with a double quote and the value holds none (the exact rule is `QuotedValueAccepts`) |
| Console.ValueText | console.py:154 | The fourth piece of `split(maxsplit=3)` is a non-empty tail of the argument starting at a non-space, and its tokens are the argument's tokens after the third |
| Console.DoUpdate | console.py:136-179 | The six messages, each exactly when its check is the first to fail, in the source's order; nothing printed exactly when the object is found and four pieces are present; saved exactly when in addition the value text passes the quoting rule, and then only that attribute of that object changes, to the quoted text; the store is unchanged whenever it is not saved |
| Console.DoEof | console.py:181-184 | Prints a blank line and ends the loop without touching the store |
| Console.DoQuit | console.py:186-188 | Ends the loop, prints nothing, store untouched |
| Console.EmptyLine | console.py:190-199 | An empty line does nothing, and in particular does not repeat the last command |
| Console.DoHelp | console.py:17 | The inherited `help` prints its help text and changes nothing |
| Console.VerbNamed | console.py:46-47 | The command word `onecmd` resolves to a handler: the eight verb names, anything else none; every handler name is a non-empty run of word characters, so a dotted call can name it |
| Console.Dispatch | console.py:46-47 | Running a verb ends the loop exactly for `quit` and `EOF`; only `create`, `destroy` and `update` can change or save the store |
| Console.WordArg | console.py:43-46 | A class name captured by `\w*` is a valid argument with at most one token |
| Console.OneTokenChangesNothing | console.py:97-163 | With at most one token, `destroy` and `update` each print one message and neither change nor save the store |
| Console.OneTokenOnlyCreateWrites | console.py:43-47 | With at most one token, no verb but `create` changes the store |
| Console.Default | console.py:33-48 | `default` never ends the loop; a line that is not a dotted call does nothing; a dotted call can change the store only when its method is `create` |
| DottedCall.Match | console.py:39-40 | A match has a non-empty method name and arguments free of `)`, and its class name is the part of the line before a dot |
| DottedCall.MatchMethod | console.py:39 | After the dot the match keeps the class name, takes a non-empty method name, and its arguments hold no `)` |
| DottedCall.MatchArgs | console.py:39 | After the open parenthesis there is a match exactly when a `)` follows, and the arguments are the text before it |
| DottedCall.WordChars | console.py:39 | Greedy `\w*` stops at the first character that is not a word character |
| DottedCall.UpToClose | console.py:39 | Greedy `[^)]*` takes no `)` and stops at the first one |
| DottedCall.WordCharsPrefix | console.py:39 | What `\w*` takes is a prefix of the text made of word characters |
| DottedCall.UpToClosePrefix | console.py:39 | What `[^)]*` takes is a prefix of the text |
| DottedCall.WordCharsConcat | console.py:39 | `\w*` on a run of word characters followed by a non-word character takes exactly the run |
| DottedCall.UpToCloseConcat | console.py:39 | `[^)]*` on a text free of `)` followed by `)` takes exactly that text |
| DottedCall.MatchSound | console.py:39-45 | A match yields a possibly empty word class name, a non-empty word method name and arguments free of `)`, and the line begins with exactly `class.method(args)` |
| DottedCall.MatchOfParts | console.py:39-45 | Pieces that satisfy each step of the pattern in turn (class word, dot, method word, open parenthesis, arguments up to the close) are the groups of the match |
| DottedCall.MethodOfParts | console.py:39-45 | After the dot, a method word, an open parenthesis and arguments up to the close are the method and argument groups |
| DottedCall.MatchComplete | console.py:39-45 | Every such call at the start of a line is matched with exactly its groups, whatever follows the `)` |
| DottedCall.RewrittenNeverMatches | console.py:46-47 | The rewritten command `method Class` (or `method`) is never itself a dotted call, so rewriting cannot loop |
| PyText.LStrip | console.py:77 | The stripped text is no longer than the input and does not start with whitespace |
| PyText.LStripSuffix | console.py:77 | The stripped text is a suffix of the input |
| PyText.WordAt | console.py:77 | The first token is free of whitespace and ends at whitespace or the end of the text |
| PyText.Split | console.py:77 | `s.split()` yields only non-empty tokens free of whitespace; the lemmas below pin down which tokens |
| PyText.SplitMax | console.py:154 | `s.split(maxsplit=n)` yields at most `n + 1` pieces; `SplitMaxTokens` and the rest lemmas say which |
| PyText.SplitEmptyIff | console.py:77 | `split()` gives no tokens exactly when the text is all whitespace |
| PyText.WordAtConcat | console.py:77 | The first token of a word followed by whitespace is that word |
| PyText.SplitSkipsSpace | console.py:77 | Leading whitespace does not change the tokens |
| PyText.SplitWordThen | console.py:77 | A word, a space and a rest split into the word followed by the rest's tokens |
| PyText.SplitWord | console.py:77 | A word splits into itself |
| PyText.SplitJoinSpace | console.py:77 | Words joined by single spaces split back into the same words |
| PyText.SplitMaxTokens | console.py:154 | `split(maxsplit=n)` gives as many pieces as `split()` gives tokens but at most `n + 1`, and every piece before the last cut is the corresponding token |
| PyText.RestOfStripped | console.py:154 | A non-empty tail of the left-stripped text that starts at a non-space is such a tail of the original text |
| PyText.SplitMaxRestSuffix | console.py:154 | The last piece of a maximal `split(maxsplit=n)` is a non-empty suffix of the input starting at a non-space |
| PyText.SplitMaxRestTokens | console.py:154 | The last piece holds exactly the remaining tokens |
| PyText.SplitMaxWordThen | console.py:154 | A leading word is cut off as the first piece and uses up one cut |
| PyText.SplitOn | console.py:170 | `split(c)` gives at least one piece and no piece contains the separator |
| PyText.JoinSplitOn | console.py:170 | Joining the pieces of `split(c)` with `c` restores the text |
| PyText.JoinOnCons | console.py:170 | Joining a piece in front of other pieces puts the piece and one separator in front of their join |
| PyText.SplitOnCut | console.py:170 | A separator-free text before the first separator is the first piece |
| PyText.SplitOnWhole | console.py:170 | A text without the separator is one piece |
| PyText.SplitOnJoin | console.py:170 | Splitting separator-free pieces joined with the separator gives the pieces back |
| PyText.SplitOnLastEmpty | console.py:170-171 | The last piece is empty exactly when the text is empty or ends with the separator |
| PyText.SplitOnNonEmpty | console.py:170 | A non-empty text never splits into a single empty piece |
| PyText.SplitOnFirst | console.py:128-129 | The first piece is the prefix before the first separator |
| PyText.SplitOnCount | console.py:170-171 | The number of pieces is one more than the number of separators |
| ConsoleFacts.StrippedArgIsOk | console.py:74-78 | An argument that is empty or starts with a non-space, as a stripped argument does, meets `ArgOk`: the empty one is caught by the `arg == ''` check, and a non-empty one has a first token, so `args[0]` at console.py:78 is defined |
| ConsoleFacts.ClassNamesAreWords | console.py:23-31 | Every class name is a single token of word characters without a dot |
| ConsoleFacts.WordCharsAreWord | console.py:39-46 | A non-empty run of word characters is one token without a dot |
| ConsoleFacts.ClassTableHasSeven | console.py:53-60 | The class table holds seven distinct names, `BaseModel` among them, and a name is accepted by the class check exactly when it is in that table |
| ConsoleFacts.QuotedValueAccepts | console.py:169-172 | A value text is accepted exactly when it contains two double quotes and ends with one |
| ConsoleFacts.QuotedValueOfQuoted | console.py:170-178 | A quote-free prefix followed by a quote-free text in quotes is accepted, and the stored value is the quoted text |
| ConsoleFacts.QuotedValueShape | console.py:170-178 | An accepted value text is a quote-free prefix followed by the stored value between two quotes |
| ConsoleFacts.DestroyChecksLikeShow | console.py:97-112 | Wherever `show` prints a message, `destroy` prints the same and changes nothing; `destroy` saves exactly when `show` would print an object |
| ConsoleFacts.UpdateChecksLikeShow | console.py:151-163 | Wherever `show` prints a message, `update` prints the same and changes nothing, although it cuts with `maxsplit=3` |
| ConsoleFacts.UpdateLooksUpBeforeCounting | console.py:160-165 | `update Class id` for an absent object reports the missing instance, not the missing attribute name |
| ConsoleFacts.CreateThenShow | console.py:61-68 | After `create Class` prints an id, `show Class id` prints the new object |
| ConsoleFacts.DestroyThenShow | console.py:105-112 | After a successful `destroy`, repeating it or `show` reports no instance found |
| ConsoleFacts.UpdateLineTokens | console.py:154 | An update line with a quoted value has at least four tokens, the first three being class, id and attribute |
| ConsoleFacts.SplitMaxNone | console.py:154 | With no cuts left, `split(maxsplit=0)` of a text starting at a non-space is the whole text |
| ConsoleFacts.UpdateLineMaxSplit | console.py:154 | `split(maxsplit=3)` of such a line keeps the whole value text, spaces included, as its fourth piece |
| ConsoleFacts.UpdateLineReads | console.py:151-172 | The line `Class id attr "value"` with a quote-free value has at least four tokens, the first three being class, id and attribute, and its value text passes the quoting rule giving back the value |
| ConsoleFacts.UpdateAccepts | console.py:160-179 | An argument that addresses a stored object, has four pieces and an accepted value text prints nothing, saves, and sets exactly that attribute of that object |
| ConsoleFacts.UpdateSetsQuotedValue | console.py:168-179 | `update Class id attr "value"` on a stored object with a quote-free value (spaces allowed) prints nothing, saves, and changes only that attribute of that object, to the value |
| ConsoleFacts.SetAttributeObject | console.py:174-179 | After the attribute is set, the object under the key is the old object with that one attribute replaced |
| ConsoleFacts.ShowLineReads | console.py:77 | `Class id` splits into exactly the class and the id |
| ConsoleFacts.UpdateThenShow | console.py:168-179 | After `update Class id attr "value"` with a quote-free value, `show Class id` prints the object with that attribute set to the value |
| ConsoleFacts.ClassPartIs | console.py:128-129 | For a dot-free class name, a key's text before its first dot is that name exactly when the key is the name or starts with the name and a dot |
| ConsoleFacts.SelectedDistinct | console.py:127-130 | Filtering the store's order repeats no key |
| ConsoleFacts.SelectedAreClassKeys | console.py:126-130 | The keys `all Class` prints are exactly the stored keys of that class |
| ConsoleFacts.AllListsExactlyTheClass | console.py:126-130 | `all Class` prints each stored object of the class once and nothing else: as many lines as the store has keys of the class |
| ConsoleFacts.AllListsEverything | console.py:122-124 | `all` prints one line per stored object, and nothing for an empty store |
| ConsoleFacts.DottedCallRunsVerbOnClass | console.py:39-47 | When the line reaches `default` (the word before the dot is not itself a command), `Class.method(args)` does exactly what the command `method Class` does, except that it never ends the loop |
| ConsoleFacts.DottedCallIgnoresArgs | console.py:43-47 | Two dotted calls that differ only in their arguments or in trailing text do the same |
| ConsoleFacts.DottedShowNeverFinds | console.py:43-47 | A dotted `show` never prints an object: it reports the class name missing, the class unknown, or the id missing |
| ConsoleFacts.ShowOfClassOnly | console.py:74-83 | `show` with only a class name reports the class name missing, the class unknown, or the id missing |
| ConsoleFacts.DottedMutatorsChangeNothing | console.py:43-47 | A dotted `destroy` or `update` prints one message and neither changes nor saves the store |
| ConsoleFacts.DottedShowExample | console.py:43-47 | `User.show("1234")` reports the instance id missing whatever the store holds |
| ConsoleFacts.UnknownMethodDoesNothing | console.py:33-47 | A dotted call with a method no handler answers to, and its rewritten command, do nothing |
| ConsoleFacts.OnlyDirectQuitStops | console.py:35-47 | `quit` and `EOF` typed as commands end the loop, but their dotted forms do not when the line reaches `default` (the word before the dot is not itself a command), because `default` drops the handler's answer |

## Left out

- JSON persistence is not modelled: `FileStorage`, the file it writes and
  the reload at start-up. A save is recorded as the `saved` flag of the
  outcome.
- Object construction details are not modelled: `uuid4`, the `created_at`
  and `updated_at` timestamps, and the refresh of `updated_at` by
  `save()`. The id is a parameter, and a new object holds only its id.
- The printed form of an object (`__str__`) is not modelled; it is the
  opaque item `Shown(key, obj)`. The key stands for the class name that
  `__str__` prints; the id it prints is the object's `id` attribute.
- The text of `help` is not modelled; it is the opaque item `HelpFor(topic)`.
- Attribute values are stored as text. The source also keeps them as
  strings, since `update` never converts the quoted value.
- `setattr` on special attribute names such as `__class__` or `__dict__`
  can raise an error in Python. The model sets the attribute like any
  other.
- The `cmd.Cmd` machinery is not modelled: the prompt loop, reading
  input, `parseline`, `lastcmd`, and `precmd`/`postcmd` hooks. The model
  starts from the command word and the argument text that `cmd.Cmd` has
  already stripped. `StrippedArgIsOk` shows that such an argument meets
  the handlers' `ArgOk` precondition.
- `\w` is taken to match ASCII letters, digits and `_` only. Python's
  Unicode `\w` also matches other letters and digits, while `cmd.Cmd`
  cuts the rewritten command at its first character outside its ASCII
  identifier characters. Any dotted call whose class or method word holds
  a non-ASCII word character may therefore differ from the model. For
  example, `User.showé()` is rewritten to `showé User`, which `cmd.Cmd`
  runs as `show` with argument `é User`, printing
  `** class doesn't exist **`; the model finds no match and does nothing.
  `createé`, `allé`, `helpé` and `EOFé` differ in the same way.
- The dictionary's iteration order is the parameter `order`. Python
  yields insertion order, but the model does not fix any particular order.
- Console.DoHelp: states only that `help` prints help and changes nothing,
  because `help` belongs to `cmd.Cmd`, not to this class.
- Console.Default: states only that the loop continues and which method
  can change the store. `ConsoleFacts.DottedCallRunsVerbOnClass` gives
  the full equivalence.
- Console.DoUpdate: an update of the attribute `save` saves and continues
  in the model. In the source, `obj.__dict__.get("save")` is `None`
  because `save` is a method, so `setattr` stores an instance attribute
  `save` that shadows the method. The `obj.save()` that follows then
  calls a string and raises `TypeError`, which nothing catches: the
  interpreter stops and nothing is saved. The model leaves this crash out.
- Console.DoUpdate: the frame "only that attribute of that object
  changes" leaves out the `updated_at` refresh that `obj.save()`
  performs. In particular `update C id updated_at "x"` stores `x` in the
  model, while the source's save then overwrites it with the current time.
- Console.Dispatch: states only stopping and which verbs may write. The
  individual handlers carry the full contracts.
- The model classes in `models/` are not part of this model beyond their
  class names. Their attribute defaults are among the fields left out.

=== FILE: console.dfy ===
/** The command handlers of the HBNB console interpreter (`HBNBCommand`).

    Each handler is a pure function from the object store and its argument
    text to an `Outcome`: the lines it prints, the store afterwards, whether
    it asked for the store to be written to disk, and whether it ends the
    read-eval loop. The argument is the text `cmd.Cmd` passes after the verb,
    which `cmd.Cmd` has already stripped of surrounding whitespace. */
module Console {
  import opened Optional
  import opened PyText
  import opened DottedCall

  /** An object's attributes, by name; every value is text. */
  type Object = map<string, string>

  /** The object store: `"<Class>.<id>"` to object. */
  type Store = map<string, Object>

  /** One printed line. */
  datatype Item =
    | Line(text: string)      // a fixed message, an id, or EOF's blank line
    | Shown(key: string, obj: Object)  // `print(obj)`: the object's string form, naming its class and id
    | HelpFor(topic: string)  // the help text `cmd.Cmd` prints for `help`

  /** What one command does: printed lines, the store afterwards, whether
      the store was saved to disk, and whether the loop stops. */
  datatype Outcome = Outcome(out: seq<Item>, store: Store, saved: bool, stop: bool)

  const ClassNameMissing := "** class name missing **"
  const ClassDoesntExist := "** class doesn't exist **"
  const InstanceIdMissing := "** instance id missing **"
  const NoInstanceFound := "** no instance found **"
  const AttributeNameMissing := "** attribute name missing **"
  const ValueMissing := "** value missing **"

  /** The class names the console knows. `create`'s class table has the
      same seven names, `BaseModel` included. */
  const ClassList: seq<string> := ["BaseModel", "User", "State", "Place", "Amenity", "Review", "City"]

  /** `s in __class_list` (and `s in class_dict` in `create`): `s` is one
      of the names of `ClassList`, compared one by one. */
  predicate IsClassName(s: string) {
    || s == "BaseModel" || s == "User" || s == "State" || s == "Place"
    || s == "Amenity" || s == "Review" || s == "City"
  }

  /** The store key of the object of class `cls` with id `id`. */
  function Key(cls: string, id: string): string {
    cls + "." + id
  }

  /** A freshly constructed object; its timestamps are not modelled. */
  function NewObject(id: string): Object {
    map["id" := id]
  }

  /** Exactly one message printed; nothing else happens. */
  function Reject(st: Store, msg: string): Outcome {
    Outcome([Line(msg)], st, false, false)
  }

  /** Nothing printed; nothing happens. */
  function Quiet(st: Store): Outcome {
    Outcome([], st, false, false)
  }

  /** What `cmd.Cmd` guarantees of an argument: it is empty or has a first
      token (a stripped, non-empty argument always has one). */
  predicate ArgOk(arg: string) {
    arg == "" || Split(arg) != []
  }

  /** The id supplied for a new object does not collide with a stored key
      (a fresh UUID). Only a known class needs it. */
  predicate FreshFor(st: Store, cls: string, id: string) {
    IsClassName(cls) ==> Key(cls, id) !in st
  }

  /** The id is fresh for every class, so whatever class a line names. */
  ghost predicate FreshId(st: Store, id: string) {
    forall cls | IsClassName(cls) :: Key(cls, id) !in st
  }

  /* ---------------------------------------------------------------------- */
  /* The checks shared by show, destroy and update, in terms of the tokens   */
  /* of the argument                                                         */
  /* ---------------------------------------------------------------------- */

  /** The first token names no known class. */
  predicate UnknownClass(arg: string) {
    arg != "" && |Split(arg)| >= 1 && !IsClassName(Split(arg)[0])
  }

  /** A known class is named but no id follows it. */
  predicate IdMissing(arg: string) {
    |Split(arg)| == 1 && IsClassName(Split(arg)[0])
  }

  /** A known class and an id are named. */
  predicate Addressed(arg: string) {
    |Split(arg)| >= 2 && IsClassName(Split(arg)[0])
  }

  /** The key the first two tokens name. */
  function Target(arg: string): string
    requires |Split(arg)| >= 2
  {
    Key(Split(arg)[0], Split(arg)[1])
  }

  /** The argument names a key the store does not hold. */
  predicate Absent(st: Store, arg: string) {
    Addressed(arg) && Target(arg) !in st
  }

  /** The argument names a key the store holds. */
  predicate Found(st: Store, arg: string) {
    Addressed(arg) && Target(arg) in st
  }

  /* ---------------------------------------------------------------------- */
  /* Frame conditions                                                        */
  /* ---------------------------------------------------------------------- */

  /** `st'` is `st` with one new entry `key` holding `obj`. */
  predicate AddsOnly(st: Store, st': Store, key: string, obj: Object) {
    && key !in st
    && st'.Keys == st.Keys + {key}
    && key in st' && st'[key] == obj
    && forall k | k in st :: st'[k] == st[k]
  }

  /** `st'` is `st` without entry `key`, every other entry untouched. */
  predicate RemovesOnly(st: Store, st': Store, key: string) {
    && key in st
    && st'.Keys == st.Keys - {key}
    && forall k | k in st' :: st'[k] == st[k]
  }

  /** `st'` is `st` with attribute `attr` of object `key` set to `val`
      (added if it was absent); no other attribute and no other object
      changes. */
  predicate SetsAttribute(st: Store, st': Store, key: string, attr: string, val: string) {
    && key in st
    && st'.Keys == st.Keys
    && (forall k | k in st && k != key :: st'[k] == st[k])
    && st'[key].Keys == st[key].Keys + {attr}
    && st'[key][attr] == val
    && forall a | a in st[key] && a != attr :: st'[key][a] == st[key][a]
  }

  /* ---------------------------------------------------------------------- */
  /* create                                                                  */
  /* ---------------------------------------------------------------------- */

  /** `create <Class>`: the whole argument must be a known class name; a
      new object with the supplied id is stored under `"<Class>.<id>"`,
      the store is saved and the id printed. */
  function DoCreate(st: Store, arg: string, id: string): (r: Outcome)
    requires FreshFor(st, arg, id)
    ensures arg == "" <==> r == Reject(st, ClassNameMissing)
    ensures arg != "" && !IsClassName(arg) <==> r == Reject(st, ClassDoesntExist)
    ensures IsClassName(arg) <==> r.saved
    ensures IsClassName(arg) ==>
      && r.out == [Line(id)] && !r.stop
      && AddsOnly(st, r.store, Key(arg, id), NewObject(id))
      && |r.store| == |st| + 1
  {
    if arg == "" then Reject(st, ClassNameMissing)
    else if !IsClassName(arg) then Reject(st, ClassDoesntExist)
    else
      var key := Key(arg, id);
      Outcome([Line(id)], st[key := NewObject(id)], true, false)
  }

  /* ---------------------------------------------------------------------- */
  /* show                                                                    */
  /* ---------------------------------------------------------------------- */

  /** `show <Class> <id>`: prints the stored object, or the message of the
      first check that fails. Tokens after the id are ignored. */
  function DoShow(st: Store, arg: string): (r: Outcome)
    requires ArgOk(arg)
    ensures r.store == st && !r.saved && !r.stop && |r.out| == 1
    ensures arg == "" <==> r == Reject(st, ClassNameMissing)
    ensures UnknownClass(arg) <==> r == Reject(st, ClassDoesntExist)
    ensures IdMissing(arg) <==> r == Reject(st, InstanceIdMissing)
    ensures Absent(st, arg) <==> r == Reject(st, NoInstanceFound)
    ensures Found(st, arg) <==> r.out[0].Shown?
    ensures Found(st, arg) ==> r.out == [Shown(Target(arg), st[Target(arg)])]
  {
    if arg == "" then Reject(st, ClassNameMissing)
    else
      var args := Split(arg);
      if !IsClassName(args[0]) then Reject(st, ClassDoesntExist)
      else if |args| < 2 then Reject(st, InstanceIdMissing)
      else
        var key := Key(args[0], args[1]);
        if key !in st then Reject(st, NoInstanceFound)
        else Outcome([Shown(key, st[key])], st, false, false)
  }

  /* ---------------------------------------------------------------------- */
  /* destroy                                                                 */
  /* ---------------------------------------------------------------------- */

  /** `destroy <Class> <id>`: removes the stored object and saves the store,
      printing nothing; otherwise the message of the first failing check. */
  function DoDestroy(st: Store, arg: string): (r: Outcome)
    requires ArgOk(arg)
    ensures !r.stop
    ensures arg == "" <==> r == Reject(st, ClassNameMissing)
    ensures UnknownClass(arg) <==> r == Reject(st, ClassDoesntExist)
    ensures IdMissing(arg) <==> r == Reject(st, InstanceIdMissing)
    ensures Absent(st, arg) <==> r == Reject(st, NoInstanceFound)
    ensures Found(st, arg) <==> r.out == []
    ensures Found(st, arg) <==> r.saved
    ensures !Found(st, arg) ==> r.store == st
    ensures Found(st, arg) ==> RemovesOnly(st, r.store, Target(arg)) && |r.store| == |st| - 1
  {
    if arg == "" then Reject(st, ClassNameMissing)
    else
      var args := Split(arg);
      if !IsClassName(args[0]) then Reject(st, ClassDoesntExist)
      else if |args| < 2 then Reject(st, InstanceIdMissing)
      else
        var key := Key(args[0], args[1]);
        if key !in st then Reject(st, NoInstanceFound)
        else
          assert (st - {key}).Keys == st.Keys - {key};
          Outcome([], st - {key}, true, false)
  }

  /* ---------------------------------------------------------------------- */
  /* all                                                                     */
  /* ---------------------------------------------------------------------- */

  /** No element occurs twice. */
  predicate Distinct(xs: seq<string>) {
    forall i, j | 0 <= i < j < |xs| :: xs[i] != xs[j]
  }

  /** `order` lists every key of `st` exactly once: the iteration order of
      the store's dictionary. */
  predicate Enumerates(order: seq<string>, st: Store) {
    && Distinct(order)
    && (forall i | 0 <= i < |order| :: order[i] in st)
    && (forall k | k in st :: k in order)
  }

  /** `key.split('.')[0]`: the text of a key before its first dot. */
  function ClassPart(key: string): (r: string)
    ensures |r| <= |key| && r == key[..|r|] && '.' !in r
    ensures |r| < |key| ==> key[|r|] == '.'
  {
    SplitOnFirst(key, '.');
    SplitOn(key, '.')[0]
  }

  /** The keys of `order` whose class part is `cls`, in order. */
  function Selected(order: seq<string>, cls: string): (r: seq<string>)
    ensures forall k :: k in r <==> k in order && ClassPart(k) == cls
    ensures |r| <= |order|
  {
    if order == [] then []
    else (if ClassPart(order[0]) == cls then [order[0]] else []) + Selected(order[1..], cls)
  }

  /** `print(v)` for the objects under `keys`, in order. */
  function ShowEach(st: Store, keys: seq<string>): (r: seq<Item>)
    requires forall i | 0 <= i < |keys| :: keys[i] in st
    ensures |r| == |keys|
    ensures forall i | 0 <= i < |r| :: r[i] == Shown(keys[i], st[keys[i]])
  {
    if keys == [] then [] else [Shown(keys[0], st[keys[0]])] + ShowEach(st, keys[1..])
  }

  /** `all [<Class>]`: with no argument, every stored object; with a known
      class name (the whole argument), the objects whose key's class part
      is that name; otherwise the class message. Never changes the store. */
  function DoAll(st: Store, arg: string, order: seq<string>): (r: Outcome)
    requires Enumerates(order, st)
    ensures r.store == st && !r.saved && !r.stop
    ensures arg != "" && !IsClassName(arg) <==> r == Reject(st, ClassDoesntExist)
    ensures arg == "" ==>
      && |r.out| == |order| == |st|
      && forall i | 0 <= i < |r.out| :: r.out[i] == Shown(order[i], st[order[i]])
    ensures IsClassName(arg) ==>
      var ks := Selected(order, arg);
      && |r.out| == |ks|
      && forall i | 0 <= i < |r.out| :: ks[i] in st && r.out[i] == Shown(ks[i], st[ks[i]])
  {
    if arg == "" then
      EnumerationLength(order, st);
      Outcome(ShowEach(st, order), st, false, false)
    else if IsClassName(arg) then
      var ks := Selected(order, arg);
      SelectedStored(order, st, arg);
      Outcome(ShowEach(st, ks), st, false, false)
    else Reject(st, ClassDoesntExist)
  }

  /** Keys selected from stored keys are stored. */
  lemma {:induction false} SelectedStored(order: seq<string>, st: Store, cls: string)
    requires forall i | 0 <= i < |order| :: order[i] in st
    ensures forall i | 0 <= i < |Selected(order, cls)| :: Selected(order, cls)[i] in st
    decreases |order|
  {
    if order != [] {
      SelectedStored(order[1..], st, cls);
      var rest := Selected(order[1..], cls);
      if ClassPart(order[0]) == cls {
        assert Selected(order, cls) == [order[0]] + rest;
      } else {
        assert Selected(order, cls) == [] + rest;
      }
    }
  }

  /** An enumeration of the store has one position per entry. */
  lemma EnumerationLength(order: seq<string>, st: Store)
    requires Enumerates(order, st)
    ensures |order| == |st|
  {
    DistinctLength(order, st.Keys);
  }

  /** A duplicate-free sequence is as long as the set of its elements. */
  lemma {:induction false} DistinctLength(xs: seq<string>, s: set<string>)
    requires Distinct(xs)
    requires forall k :: k in xs <==> k in s
    ensures |xs| == |s|
    decreases |xs|
  {
    if xs != [] {
      var rest := s - {xs[0]};
      forall k ensures k in xs[1..] <==> k in rest {
        if k in xs[1..] {
          var j :| 1 <= j < |xs| && xs[j] == k;
          assert xs[0] != xs[j];
        }
        if k in rest {
          assert k in xs;
          var j :| 0 <= j < |xs| && xs[j] == k;
          assert j != 0;
          assert xs[1..][j - 1] == k;
        }
      }
      DistinctLength(xs[1..], rest);
    }
  }

  /* ---------------------------------------------------------------------- */
  /* update                                                                  */
  /* ---------------------------------------------------------------------- */

  /** The value rule of `update`: `v.split('"')` must give exactly three
      pieces, the last empty; the value is the middle piece. Text before
      the opening quote is tolerated. */
  function QuotedValue(v: string): (r: Option<string>)
    ensures r.Some? ==> '"' !in r.value && v != [] && v[|v| - 1] == '"'
  {
    var pieces := SplitOn(v, '"');
    SplitOnLastEmpty(v, '"');
    if |pieces| != 3 || pieces[2] != "" then None else Some(pieces[1])
  }

  /** The text after the attribute name: the fourth item of
      `arg.split(maxsplit=3)`, the rest of the line kept whole. */
  function ValueText(arg: string): (r: string)
    requires |Split(arg)| >= 4
    ensures r != [] && !IsSpace(r[0]) && |r| <= |arg| && r == arg[|arg| - |r|..]
    ensures Split(r) == Split(arg)[3..]
  {
    SplitMaxTokens(arg, 3);
    SplitMaxRestSuffix(arg, 3);
    SplitMaxRestTokens(arg, 3);
    SplitMax(arg, 3)[3]
  }

  /** `update <Class> <id> <attribute> "<value>"`: sets one attribute of a
      stored object to the quoted text and saves the store. The checks run
      in order: class name, class, id, stored object, attribute name,
      value; a value that breaks the quoting rule is silently ignored. */
  function DoUpdate(st: Store, arg: string): (r: Outcome)
    requires ArgOk(arg)
    ensures !r.stop
    ensures arg == "" <==> r == Reject(st, ClassNameMissing)
    ensures UnknownClass(arg) <==> r == Reject(st, ClassDoesntExist)
    ensures IdMissing(arg) <==> r == Reject(st, InstanceIdMissing)
    ensures Absent(st, arg) <==> r == Reject(st, NoInstanceFound)
    ensures Found(st, arg) && |Split(arg)| == 2 <==> r == Reject(st, AttributeNameMissing)
    ensures Found(st, arg) && |Split(arg)| == 3 <==> r == Reject(st, ValueMissing)
    ensures Found(st, arg) && |Split(arg)| >= 4 <==> r.out == []
    ensures r.saved <==> Found(st, arg) && |Split(arg)| >= 4 && QuotedValue(ValueText(arg)).Some?
    ensures !r.saved ==> r.store == st
    ensures r.saved ==>
      SetsAttribute(st, r.store, Target(arg), Split(arg)[2], QuotedValue(ValueText(arg)).value)
  {
    if arg == "" then Reject(st, ClassNameMissing)
    else
      var args := SplitMax(arg, 3);
      SplitMaxTokens(arg, 3);
      assert args[0] == Split(arg)[0];
      if !IsClassName(args[0]) then Reject(st, ClassDoesntExist)
      else if |args| < 2 then Reject(st, InstanceIdMissing)
      else
        var key := Key(args[0], args[1]);
        assert |Split(arg)| >= 2 && args[1] == Split(arg)[1];
        assert key == Target(arg);
        if key !in st then Reject(st, NoInstanceFound)
        else if |args| < 3 then Reject(st, AttributeNameMissing)
        else if |args| < 4 then Reject(st, ValueMissing)
        else
          // Whether or not the attribute already held a truthy value, the
          // source stores the new text in the object's `__dict__`.
          match QuotedValue(args[3])
          case None => Quiet(st)
          case Some(v) => Outcome([], st[key := st[key][args[2] := v]], true, false)
  }

  /* ---------------------------------------------------------------------- */
  /* quit, EOF, the empty line, help                                         */
  /* ---------------------------------------------------------------------- */

  /** `quit`: ends the loop, prints nothing. */
  function DoQuit(st: Store, arg: string): (r: Outcome)
    ensures r.stop && r.out == [] && r.store == st && !r.saved
  {
    Outcome([], st, false, true)
  }

  /** End of input: prints a blank line (`print('\n')`) and ends the loop. */
  function DoEof(st: Store, arg: string): (r: Outcome)
    ensures r.stop && r.out == [Line("\n")] && r.store == st && !r.saved
  {
    Outcome([Line("\n")], st, false, true)
  }

  /** An empty line does nothing; the previous command is not repeated. */
  function EmptyLine(st: Store): (r: Outcome)
    ensures !r.stop && r.out == [] && r.store == st && !r.saved
  {
    Quiet(st)
  }

  /** `help [topic]`, inherited from `cmd.Cmd`: its text is opaque here. */
  function DoHelp(st: Store, arg: string): (r: Outcome)
    ensures !r.stop && r.out == [HelpFor(arg)] && r.store == st && !r.saved
  {
    Outcome([HelpFor(arg)], st, false, false)
  }

  /* ---------------------------------------------------------------------- */
  /* Dispatch and the dotted-call form                                       */
  /* ---------------------------------------------------------------------- */

  /** The verbs the interpreter answers to (its `do_*` methods). */
  datatype Verb = Create | Show | Destroy | All | Update | Quit | Eof | Help

  /** The verb a command word selects: `do_<word>` when it exists. */
  function VerbNamed(name: string): (r: Option<Verb>)
    ensures r.Some? ==> name != [] && AllWordChars(name)
  {
    match name
    case "create" => Some(Create)
    case "show" => Some(Show)
    case "destroy" => Some(Destroy)
    case "all" => Some(All)
    case "update" => Some(Update)
    case "quit" => Some(Quit)
    case "EOF" => Some(Eof)
    case "help" => Some(Help)
    case _ => None
  }

  /** Run the handler of verb `v` on argument `arg`. `id` is the id a new
      object would get; `order` is the store's iteration order. */
  function Dispatch(st: Store, v: Verb, arg: string, id: string, order: seq<string>): (r: Outcome)
    requires ArgOk(arg) && Enumerates(order, st)
    requires v == Create ==> FreshFor(st, arg, id)
    ensures r.stop <==> v == Quit || v == Eof
    ensures r.store != st || r.saved ==> v in {Create, Destroy, Update}
  {
    match v
    case Create => DoCreate(st, arg, id)
    case Show => DoShow(st, arg)
    case Destroy => DoDestroy(st, arg)
    case All => DoAll(st, arg, order)
    case Update => DoUpdate(st, arg)
    case Quit => DoQuit(st, arg)
    case Eof => DoEof(st, arg)
    case Help => DoHelp(st, arg)
  }

  /** A class name of word characters is a valid argument with at most one
      token. */
  lemma WordArg(w: string)
    requires AllWordChars(w)
    ensures ArgOk(w) && |Split(w)| <= 1
  {
    if w != "" {
      assert NoSpace(w) by {
        forall i | 0 <= i < |w| ensures !IsSpace(w[i]) {
          assert IsWordChar(w[i]);
        }
      }
      SplitWord(w);
    }
  }

  /** With at most one token, `destroy` and `update` address no object:
      each prints one message and changes nothing. */
  lemma OneTokenChangesNothing(st: Store, arg: string)
    requires ArgOk(arg) && |Split(arg)| <= 1
    ensures var r := DoDestroy(st, arg);
      r.store == st && !r.saved && |r.out| == 1 && r.out[0].Line?
    ensures var r := DoUpdate(st, arg);
      r.store == st && !r.saved && |r.out| == 1 && r.out[0].Line?
  {
    assert !Found(st, arg);
  }

  /** With at most one token, only `create` can change the store. */
  lemma OneTokenOnlyCreateWrites(st: Store, arg: string, id: string, order: seq<string>)
    requires ArgOk(arg) && |Split(arg)| <= 1 && Enumerates(order, st) && FreshFor(st, arg, id)
    ensures forall v: Verb :: Dispatch(st, v, arg, id, order).store != st ==> v == Create
  {
    OneTokenChangesNothing(st, arg);
  }

  /** `default(line)`: a line no verb claimed. A dotted call
      `Class.method(args)` is re-run as the command `method Class`, its
      arguments dropped; anything else does nothing. The loop never stops
      here, since `default` does not pass on the handler's answer. */
  function Default(st: Store, line: string, id: string, order: seq<string>): (r: Outcome)
    requires Enumerates(order, st)
    requires FreshId(st, id)
    ensures !r.stop
    ensures Match(line) == None ==> r == Quiet(st)
    ensures r.store != st ==>
      Match(line).Some? && VerbNamed(Match(line).value.methodName) == Some(Create)
  {
    match Match(line)
    case None => Quiet(st)
    case Some(call) =>
      MatchSound(line);
      WordArg(call.className);
      OneTokenOnlyCreateWrites(st, call.className, id, order);
      match VerbNamed(call.methodName)
      case None => Quiet(st)
      case Some(v) => Dispatch(st, v, call.className, id, order).(stop := false)
  }
}

=== FILE: console_facts.dfy ===
/** Properties relating the console's handlers to each other, to the text
    of their arguments and to the dotted-call form. */
module ConsoleFacts {
  import opened Optional
  import opened PyText
  import opened DottedCall
  import opened Console

  /* ---------------------------------------------------------------------- */
  /* Arguments                                                               */
  /* ---------------------------------------------------------------------- */

  /** An argument that is empty or starts with a non-whitespace character
      (as every argument `cmd.Cmd` passes does, having stripped it) meets
      the handlers' precondition. */
  lemma StrippedArgIsOk(arg: string)
    requires arg == "" || !IsSpace(arg[0])
    ensures ArgOk(arg)
  {
    SplitEmptyIff(arg);
  }

  /** The known class names are single tokens of word characters with no
      dot in them. */
  lemma ClassNamesAreWords(cls: string)
    requires IsClassName(cls)
    ensures IsWord(cls) && AllWordChars(cls) && '.' !in cls
  {
    assert cls != [] && AllWordChars(cls);
    WordCharsAreWord(cls);
  }

  /** A non-empty run of word characters is a token without a dot. */
  lemma WordCharsAreWord(w: string)
    requires w != [] && AllWordChars(w)
    ensures IsWord(w) && '.' !in w
  {
    forall i | 0 <= i < |w| ensures !IsSpace(w[i]) && w[i] != '.' {
      assert IsWordChar(w[i]);
    }
  }

  /** `create`'s class table and the class list of the other handlers hold
      the same seven distinct names, `BaseModel` among them; so `create
      BaseModel` is accepted like the six model classes. */
  lemma ClassTableHasSeven()
    ensures |ClassList| == 7 && Distinct(ClassList)
    ensures "BaseModel" in ClassList
    ensures forall cls :: IsClassName(cls) <==> cls in ClassList
  {
  }

  /* ---------------------------------------------------------------------- */
  /* The quoting rule of update                                              */
  /* ---------------------------------------------------------------------- */

  /** The rule in plain terms: a value text is accepted exactly when it
      holds two double quotes and ends with one. */
  lemma QuotedValueAccepts(v: string)
    ensures QuotedValue(v).Some? <==> Count(v, '"') == 2 && v != [] && v[|v| - 1] == '"'
  {
    SplitOnCount(v, '"');
    SplitOnLastEmpty(v, '"');
  }

  /** Any quote-free prefix followed by a quoted, quote-free text is
      accepted, and the value is the quoted text. */
  lemma QuotedValueOfQuoted(p: string, x: string)
    requires '"' !in p && '"' !in x
    ensures QuotedValue(p + "\"" + x + "\"") == Some(x)
  {
    var ps := [p, x, ""];
    SplitOnJoin(ps, '"');
    assert ps[1..] == [x, ""] && ps[1..][1..] == [""];
    assert JoinOn([x, ""], '"') == x + ['"'] + [];
    assert JoinOn(ps, '"') == p + ['"'] + (x + ['"']);
    assert JoinOn(ps, '"') == p + "\"" + x + "\"";
  }

  /** Conversely, an accepted text is a quote-free prefix (its first piece)
      followed by the value between two quotes. */
  lemma QuotedValueShape(v: string)
    requires QuotedValue(v).Some?
    ensures var p := SplitOn(v, '"')[0];
      var x := QuotedValue(v).value;
      '"' !in p && '"' !in x && v == p + "\"" + x + "\""
  {
    var ps := SplitOn(v, '"');
    JoinSplitOn(v, '"');
    assert ps[1..] == [ps[1], ps[2]] && ps[1..][1..] == [ps[2]];
    assert JoinOn([ps[1], ps[2]], '"') == ps[1] + ['"'] + ps[2];
    assert JoinOn(ps, '"') == ps[0] + ['"'] + (ps[1] + ['"'] + ps[2]);
    assert ps[2] == [];
  }

  /* ---------------------------------------------------------------------- */
  /* Check order shared by show, destroy and update                          */
  /* ---------------------------------------------------------------------- */

  /** `destroy` runs the same checks as `show`: whenever `show` rejects an
      argument, `destroy` prints the same message and changes nothing; and
      `destroy` changes the store exactly when `show` would print an
      object. */
  lemma DestroyChecksLikeShow(st: Store, arg: string)
    requires ArgOk(arg)
    ensures DoShow(st, arg).out[0].Line? ==> DoDestroy(st, arg) == DoShow(st, arg)
    ensures DoShow(st, arg).out[0].Shown? <==> DoDestroy(st, arg).saved
  {
  }

  /** `update` looks the object up exactly as `show` does, although it cuts
      its argument with `maxsplit=3`: whenever `show` rejects an argument,
      `update` prints the same message and changes nothing. */
  lemma UpdateChecksLikeShow(st: Store, arg: string)
    requires ArgOk(arg)
    ensures DoShow(st, arg).out[0].Line? ==> DoUpdate(st, arg) == DoShow(st, arg)
  {
  }

  /** The lookup comes before the argument count: `update <Class> <id>`
      for an absent object reports the missing object, not the missing
      attribute name. */
  lemma UpdateLooksUpBeforeCounting(st: Store, cls: string, id: string)
    requires IsClassName(cls) && IsWord(id) && Key(cls, id) !in st
    ensures ArgOk(cls + " " + id)
    ensures DoUpdate(st, cls + " " + id) == Reject(st, NoInstanceFound)
  {
    ClassNamesAreWords(cls);
    ShowLineReads(cls, id);
  }

  /* ---------------------------------------------------------------------- */
  /* Sessions of two commands                                                */
  /* ---------------------------------------------------------------------- */

  /** After `create <Class>` prints an id, `show <Class> <id>` prints the
      new object. */
  lemma CreateThenShow(st: Store, cls: string, id: string)
    requires IsClassName(cls) && IsWord(id) && Key(cls, id) !in st
    ensures ArgOk(cls + " " + id)
    ensures var st' := DoCreate(st, cls, id).store;
      DoShow(st', cls + " " + id) == Outcome([Shown(Key(cls, id), NewObject(id))], st', false, false)
  {
    ClassNamesAreWords(cls);
    ShowLineReads(cls, id);
  }

  /** After a successful `destroy`, the same `show` and the same `destroy`
      both report that there is no such instance. */
  lemma DestroyThenShow(st: Store, arg: string)
    requires ArgOk(arg) && Found(st, arg)
    ensures var st' := DoDestroy(st, arg).store;
      && DoShow(st', arg) == Reject(st', NoInstanceFound)
      && DoDestroy(st', arg) == Reject(st', NoInstanceFound)
  {
  }

  /** A sequence built by three conses is the three elements, then the rest. */
  lemma ConsThree<T>(a: T, b: T, c: T, xs: seq<T>)
    ensures [a] + ([b] + ([c] + xs)) == [a, b, c] + xs
  {
  }

  /** The tokens of an update line: its three words, then those of the
      value text, of which there is at least one. */
  lemma UpdateLineTokens(line: string, cls: string, id: string, attr: string, q: string)
    requires IsWord(cls) && IsWord(id) && IsWord(attr) && q != [] && !IsSpace(q[0])
    requires line == cls + " " + (id + " " + (attr + " " + q))
    ensures Split(line) == [cls, id, attr] + Split(q) && Split(q) != []
  {
    var r2 := attr + " " + q;
    var r1 := id + " " + r2;
    assert LStrip(q) == q;
    SplitWordThen(attr, q);
    SplitWordThen(id, r2);
    SplitWordThen(cls, r1);
    ConsThree(cls, id, attr, Split(q));
  }

  /** `split(maxsplit=0)` of a text that starts with a non-space is the
      whole text. */
  lemma SplitMaxNone(s: string)
    requires s != [] && !IsSpace(s[0])
    ensures SplitMax(s, 0) == [s]
  {
    assert LStrip(s) == s;
  }

  /** The pieces `split(maxsplit=3)` cuts an update line into: the value
      text is kept whole. */
  lemma UpdateLineMaxSplit(line: string, cls: string, id: string, attr: string, q: string)
    requires IsWord(cls) && IsWord(id) && IsWord(attr) && q != [] && !IsSpace(q[0])
    requires line == cls + " " + (id + " " + (attr + " " + q))
    ensures SplitMax(line, 3) == [cls, id, attr, q]
  {
    var r2 := attr + " " + q;
    var r1 := id + " " + r2;
    SplitMaxNone(q);
    SplitMaxWordThen(attr, q, 0);
    SplitMaxWordThen(id, r2, 1);
    SplitMaxWordThen(cls, r1, 2);
    ConsThree(cls, id, attr, [q]);
  }

  /** The command line `<Class> <id> <attr> "<value>"` after `update`. */
  function UpdateLine(cls: string, id: string, attr: string, val: string): string {
    cls + " " + id + " " + attr + " " + "\"" + val + "\""
  }

  /** What the handler reads from an update line with a quoted,
      quote-free value: the three words as its first tokens, four pieces,
      and the value through the quoting rule. */
  lemma UpdateLineReads(cls: string, id: string, attr: string, val: string)
    requires IsWord(cls) && IsWord(id) && IsWord(attr) && '"' !in val
    ensures var line := UpdateLine(cls, id, attr, val);
      && ArgOk(line) && |Split(line)| >= 4
      && Split(line)[0] == cls && Split(line)[1] == id && Split(line)[2] == attr
      && QuotedValue(ValueText(line)) == Some(val)
  {
    var q := "\"" + val + "\"";
    var line := UpdateLine(cls, id, attr, val);
    assert line == cls + " " + (id + " " + (attr + " " + q));
    UpdateLineTokens(line, cls, id, attr, q);
    UpdateLineMaxSplit(line, cls, id, attr, q);
    QuotedValueOfQuoted("", val);
    assert "" + "\"" + val + "\"" == q;
  }

  /** `update <Class> <id> <attr> "<value>"` for a stored object and a
      value free of quotes (spaces allowed) prints nothing, saves, and sets
      exactly that attribute of that object to the value. */
  lemma UpdateSetsQuotedValue(st: Store, cls: string, id: string, attr: string, val: string)
    requires IsClassName(cls) && IsWord(id) && IsWord(attr) && '"' !in val
    requires Key(cls, id) in st
    ensures ArgOk(UpdateLine(cls, id, attr, val))
    ensures var r := DoUpdate(st, UpdateLine(cls, id, attr, val));
      r.saved && r.out == [] && SetsAttribute(st, r.store, Key(cls, id), attr, val)
  {
    ClassNamesAreWords(cls);
    UpdateLineReads(cls, id, attr, val);
    UpdateAccepts(st, UpdateLine(cls, id, attr, val), Key(cls, id), attr, val);
  }

  /** An update argument that addresses a stored object, has four pieces
      and a value text that passes the quoting rule sets the attribute. */
  lemma UpdateAccepts(st: Store, arg: string, key: string, attr: string, val: string)
    requires ArgOk(arg) && Found(st, arg) && |Split(arg)| >= 4
    requires Target(arg) == key && Split(arg)[2] == attr && QuotedValue(ValueText(arg)) == Some(val)
    ensures var r := DoUpdate(st, arg);
      r.saved && r.out == [] && SetsAttribute(st, r.store, key, attr, val)
  {
  }

  /** After such an update, `show <Class> <id>` prints the object with
      that attribute set to the value. */
  lemma UpdateThenShow(st: Store, cls: string, id: string, attr: string, val: string)
    requires IsClassName(cls) && IsWord(id) && IsWord(attr) && '"' !in val
    requires Key(cls, id) in st
    ensures ArgOk(UpdateLine(cls, id, attr, val)) && ArgOk(cls + " " + id)
    ensures var st' := DoUpdate(st, UpdateLine(cls, id, attr, val)).store;
      DoShow(st', cls + " " + id).out == [Shown(Key(cls, id), st[Key(cls, id)][attr := val])]
  {
    UpdateSetsQuotedValue(st, cls, id, attr, val);
    var st' := DoUpdate(st, UpdateLine(cls, id, attr, val)).store;
    SetAttributeObject(st, st', Key(cls, id), attr, val);
    ClassNamesAreWords(cls);
    ShowLineReads(cls, id);
  }

  /** The object an attribute was set on is the old object with that
      attribute set. */
  lemma SetAttributeObject(st: Store, st': Store, key: string, attr: string, val: string)
    requires SetsAttribute(st, st', key, attr, val)
    ensures key in st' && st'[key] == st[key][attr := val]
  {
  }

  /** The tokens of `<Class> <id>`. */
  lemma ShowLineReads(cls: string, id: string)
    requires IsWord(cls) && IsWord(id)
    ensures ArgOk(cls + " " + id) && Split(cls + " " + id) == [cls, id]
  {
    SplitWordThen(cls, id);
    SplitWord(id);
  }

  /* ---------------------------------------------------------------------- */
  /* all                                                                     */
  /* ---------------------------------------------------------------------- */

  /** A key of class `cls`: the class name alone, or the class name, a dot
      and the rest. */
  predicate OfClass(key: string, cls: string) {
    key == cls || (|cls| < |key| && key[..|cls| + 1] == cls + ".")
  }

  /** For a name without a dot, a key's class part is that name exactly
      when the key is of that class. */
  lemma ClassPartIs(key: string, cls: string)
    requires '.' !in cls
    ensures ClassPart(key) == cls <==> OfClass(key, cls)
  {
    SplitOnFirst(key, '.');
    var p := ClassPart(key);
    if |cls| < |key| && key[..|cls| + 1] == cls + "." {
      assert key[|cls|] == '.';
      assert key[..|cls|] == cls;
    }
    if p == cls && |p| < |key| {
      assert key[..|cls| + 1] == cls + ".";
    }
  }

  /** Selecting keys from a duplicate-free order gives no duplicates. */
  lemma {:induction false} SelectedDistinct(order: seq<string>, cls: string)
    requires Distinct(order)
    ensures Distinct(Selected(order, cls))
    decreases |order|
  {
    if order != [] {
      SelectedDistinct(order[1..], cls);
      var ks := Selected(order, cls);
      var rest := Selected(order[1..], cls);
      if ClassPart(order[0]) == cls {
        assert ks == [order[0]] + rest;
        forall j | 1 <= j < |ks| ensures ks[0] != ks[j] {
          assert ks[j] == rest[j - 1] && rest[j - 1] in rest;
          assert ks[j] in order[1..];
          var m :| 0 <= m < |order[1..]| && order[1..][m] == ks[j];
          assert order[0] != order[m + 1];
        }
      } else {
        assert ks == [] + rest;
      }
    }
  }

  /** The keys `all <Class>` prints are the stored keys of that class. */
  lemma SelectedAreClassKeys(st: Store, order: seq<string>, cls: string)
    requires Enumerates(order, st) && IsClassName(cls)
    ensures forall k :: k in Selected(order, cls) <==> k in st && OfClass(k, cls)
  {
    ClassNamesAreWords(cls);
    forall k ensures k in Selected(order, cls) <==> k in st && OfClass(k, cls) {
      ClassPartIs(k, cls);
    }
  }

  /** `all <Class>` prints each stored object of that class exactly once
      and nothing else: the keys it prints are the stored keys of the
      class, without repetition, so it prints as many lines as there are
      such keys. */
  lemma AllListsExactlyTheClass(st: Store, order: seq<string>, cls: string)
    requires Enumerates(order, st) && IsClassName(cls)
    ensures forall k :: k in Selected(order, cls) <==> k in st && OfClass(k, cls)
    ensures Distinct(Selected(order, cls))
    ensures |DoAll(st, cls, order).out| == |set k | k in st && OfClass(k, cls)|
  {
    var ks := Selected(order, cls);
    SelectedAreClassKeys(st, order, cls);
    SelectedDistinct(order, cls);
    DistinctLength(ks, set k | k in st && OfClass(k, cls));
  }

  /** `all` with no argument prints one line per stored object, and prints
      nothing for an empty store. */
  lemma AllListsEverything(st: Store, order: seq<string>)
    requires Enumerates(order, st)
    ensures |DoAll(st, "", order).out| == |st|
    ensures st == map[] ==> DoAll(st, "", order).out == []
  {
  }

  /* ---------------------------------------------------------------------- */
  /* The dotted-call form                                                    */
  /* ---------------------------------------------------------------------- */

  /** `Class.method(args)` behaves exactly like the command `method Class`
      (except that it never ends the loop), whatever the arguments and
      whatever follows the closing parenthesis. */
  lemma DottedCallRunsVerbOnClass(st: Store, c: Call, after: string, v: Verb, id: string, order: seq<string>)
    requires WellFormed(c) && VerbNamed(c.methodName) == Some(v)
    requires Enumerates(order, st) && FreshId(st, id)
    ensures ArgOk(c.className)
    ensures Default(st, CallText(c) + after, id, order)
      == Dispatch(st, v, c.className, id, order).(stop := false)
  {
    MatchComplete(c, after);
    WordArg(c.className);
  }

  /** The parenthesised arguments are discarded: two dotted calls that
      differ only in their arguments and trailing text do the same. */
  lemma DottedCallIgnoresArgs(st: Store, cls: string, m: string, a: string, a': string,
                              after: string, after': string, id: string, order: seq<string>)
    requires WellFormed(Call(cls, m, a)) && WellFormed(Call(cls, m, a'))
    requires Enumerates(order, st) && FreshId(st, id)
    ensures Default(st, CallText(Call(cls, m, a)) + after, id, order)
      == Default(st, CallText(Call(cls, m, a')) + after', id, order)
  {
    MatchComplete(Call(cls, m, a), after);
    MatchComplete(Call(cls, m, a'), after');
  }

  /** Hence the dotted `show` never finds an object: its rewritten command
      has no id token, so it reports the class name missing, the class
      unknown, or the id missing, and changes nothing. */
  lemma DottedShowNeverFinds(st: Store, cls: string, a: string, after: string, id: string, order: seq<string>)
    requires WellFormed(Call(cls, "show", a)) && Enumerates(order, st) && FreshId(st, id)
    ensures Default(st, CallText(Call(cls, "show", a)) + after, id, order)
      == Reject(st, if cls == "" then ClassNameMissing
                    else if IsClassName(cls) then InstanceIdMissing
                    else ClassDoesntExist)
  {
    DottedCallRunsVerbOnClass(st, Call(cls, "show", a), after, Show, id, order);
    ShowOfClassOnly(st, cls);
  }

  /** `show` given only a class name of word characters reports the class
      name missing, the class unknown, or the id missing. */
  lemma ShowOfClassOnly(st: Store, cls: string)
    requires AllWordChars(cls)
    ensures ArgOk(cls)
    ensures DoShow(st, cls)
      == Reject(st, if cls == "" then ClassNameMissing
                    else if IsClassName(cls) then InstanceIdMissing
                    else ClassDoesntExist)
  {
    WordArg(cls);
    if cls != "" {
      SplitWord(cls);
    }
  }

  /** The same holds for the dotted `destroy` and `update`: neither changes
      the store nor saves it. */
  lemma DottedMutatorsChangeNothing(st: Store, cls: string, m: string, a: string, after: string,
                                    id: string, order: seq<string>)
    requires m == "destroy" || m == "update"
    requires WellFormed(Call(cls, m, a)) && Enumerates(order, st) && FreshId(st, id)
    ensures var r := Default(st, CallText(Call(cls, m, a)) + after, id, order);
      r.store == st && !r.saved && |r.out| == 1 && r.out[0].Line?
  {
    WordArg(cls);
    OneTokenChangesNothing(st, cls);
    if m == "destroy" {
      DottedCallRunsVerbOnClass(st, Call(cls, m, a), after, Destroy, id, order);
    } else {
      DottedCallRunsVerbOnClass(st, Call(cls, m, a), after, Update, id, order);
    }
  }


  /** A concrete instance: `User.show("1234")` reports the id missing even
      when `User.1234` is stored. */
  lemma DottedShowExample(st: Store, id: string, order: seq<string>)
    requires Enumerates(order, st) && FreshId(st, id)
    ensures Default(st, "User.show(\"1234\")", id, order) == Reject(st, InstanceIdMissing)
  {
    var c := Call("User", "show", "\"1234\"");
    assert CallText(c) + "" == "User.show(\"1234\")";
    DottedShowNeverFinds(st, "User", "\"1234\"", "", id, order);
  }

  /** The command a dotted call is rewritten to, `method Class` (or just
      `method` when the class is empty), is not itself a dotted call; so a
      method name no handler answers to ends in `default` again and does
      nothing. */
  lemma UnknownMethodDoesNothing(st: Store, c: Call, after: string, id: string, order: seq<string>)
    requires WellFormed(c) && VerbNamed(c.methodName) == None && Enumerates(order, st) && FreshId(st, id)
    ensures Default(st, CallText(c) + after, id, order) == Quiet(st)
    ensures Default(st, c.methodName + " " + c.className, id, order) == Quiet(st)
    ensures Default(st, c.methodName, id, order) == Quiet(st)
  {
    MatchComplete(c, after);
    RewrittenNeverMatches(c.methodName, c.className);
  }

  /** Only `quit` and end of input typed as commands end the loop; their
      dotted forms `Class.quit()` and `Class.EOF()` do not. */
  lemma OnlyDirectQuitStops(st: Store, cls: string, m: string, a: string, after: string,
                            id: string, order: seq<string>)
    requires m == "quit" || m == "EOF"
    requires WellFormed(Call(cls, m, a)) && Enumerates(order, st) && FreshId(st, id)
    ensures ArgOk(cls)
    ensures Dispatch(st, VerbNamed(m).value, cls, id, order).stop
    ensures !Default(st, CallText(Call(cls, m, a)) + after, id, order).stop
  {
    WordArg(cls);
  }
}

=== FILE: dotted.dfy ===
/** The recogniser for the dotted-call line form `Class.method(args)`:
    the regular expression `^(\w*)\.(\w+)(?:\(([^)]*)\))` applied with
    `re.search`, written out by hand. `\w` is taken over ASCII letters,
    digits and `_`. */
module DottedCall {
  import opened Optional

  /** A character `\w` matches: an ASCII letter, digit or underscore (the
      same set as `cmd.Cmd`'s identifier characters). */
  predicate IsWordChar(c: char) {
    'a' <= c <= 'z' || 'A' <= c <= 'Z' || '0' <= c <= '9' || c == '_'
  }

  predicate AllWordChars(s: string) {
    forall i | 0 <= i < |s| :: IsWordChar(s[i])
  }

  /** What a greedy `\w*` consumes at the start of `s`. */
  function WordChars(s: string): (r: string)
    ensures |r| <= |s|
    ensures |r| < |s| ==> !IsWordChar(s[|r|])
    decreases |s|
  {
    if s == [] || !IsWordChar(s[0]) then [] else [s[0]] + WordChars(s[1..])
  }

  /** What a greedy `[^)]*` consumes at the start of `s`. */
  function UpToClose(s: string): (r: string)
    ensures |r| <= |s| && ')' !in r
    ensures |r| < |s| ==> s[|r|] == ')'
    decreases |s|
  {
    if s == [] || s[0] == ')' then [] else [s[0]] + UpToClose(s[1..])
  }

  /** The three groups of a match: class name, method name and the text
      between the parentheses. */
  datatype Call = Call(className: string, methodName: string, args: string)

  /** The text a match covers. */
  function CallText(c: Call): string {
    c.className + "." + c.methodName + "(" + c.args + ")"
  }

  /** The groups the pattern can produce: a possibly empty class name and
      a non-empty method name of word characters, and arguments free of
      `)`. */
  predicate WellFormed(c: Call) {
    && AllWordChars(c.className)
    && c.methodName != [] && AllWordChars(c.methodName)
    && ')' !in c.args
  }

  /** `re.search(r'^(\w*)\.(\w+)(?:\(([^)]*)\))', line)`: the groups of the
      match at the start of `line`, or `None`. Text after the closing
      parenthesis is ignored. */
  function Match(line: string): (r: Option<Call>)
    ensures r.Some? ==> r.value.methodName != [] && ')' !in r.value.args
    ensures r.Some? ==> var n := |r.value.className|;
      n < |line| && r.value.className == line[..n] && line[n] == '.'
  {
    var cls := WordChars(line);
    WordCharsPrefix(line);
    if |cls| < |line| && line[|cls|] == '.' then MatchMethod(cls, line[|cls| + 1..])
    else None
  }

  /** The rest of the pattern after the class name and the dot:
      `(\w+)\(` and the arguments. */
  function MatchMethod(cls: string, rest: string): (r: Option<Call>)
    ensures r.Some? ==> r.value.className == cls && r.value.methodName != [] && ')' !in r.value.args
  {
    var m := WordChars(rest);
    if m != [] && |m| < |rest| && rest[|m|] == '(' then MatchArgs(cls, m, rest[|m| + 1..])
    else None
  }

  /** The rest of the pattern after the opening parenthesis: `([^)]*)\)`. */
  function MatchArgs(cls: string, m: string, tail: string): (r: Option<Call>)
    ensures r.Some? <==> ')' in tail
    ensures r.Some? ==> r.value == Call(cls, m, r.value.args) && ')' !in r.value.args
  {
    var a := UpToClose(tail);
    UpToClosePrefix(tail);
    if |a| < |tail| then Some(Call(cls, m, a)) else None
  }

  lemma {:induction false} WordCharsPrefix(s: string)
    ensures WordChars(s) == s[..|WordChars(s)|]
    ensures AllWordChars(WordChars(s))
    decreases |s|
  {
    if s != [] && IsWordChar(s[0]) {
      WordCharsPrefix(s[1..]);
    }
  }

  lemma {:induction false} UpToClosePrefix(s: string)
    ensures UpToClose(s) == s[..|UpToClose(s)|]
    decreases |s|
  {
    if s != [] && s[0] != ')' {
      UpToClosePrefix(s[1..]);
    }
  }

  /** A sequence is its prefix `x`, the element after it and the rest. */
  lemma Glue<T>(s: seq<T>, x: seq<T>, c: T, y: seq<T>)
    requires |x| < |s| && s[..|x|] == x && s[|x|] == c && y == s[|x| + 1..]
    ensures s == x + ([c] + y)
  {
    assert s == s[..|x|] + s[|x|..];
  }

  lemma Reassociate<T>(a: seq<T>, b: seq<T>, c: seq<T>, d: seq<T>, e: seq<T>, f: seq<T>, g: seq<T>)
    ensures a + (b + (c + (d + (e + (f + g))))) == a + b + c + d + e + f + g
  {
  }

  /** `\w*` stops exactly at the end of a run of word characters. */
  lemma {:induction false} WordCharsConcat(w: string, rest: string)
    requires AllWordChars(w)
    requires rest == [] || !IsWordChar(rest[0])
    ensures WordChars(w + rest) == w
    decreases |w|
  {
    if w == [] {
      assert w + rest == rest;
    } else {
      assert (w + rest)[1..] == w[1..] + rest;
      WordCharsConcat(w[1..], rest);
    }
  }

  /** `[^)]*` stops exactly at the first `)`. */
  lemma {:induction false} UpToCloseConcat(a: string, rest: string)
    requires ')' !in a
    ensures UpToClose(a + ([')'] + rest)) == a
    decreases |a|
  {
    if a == [] {
      assert a + ([')'] + rest) == [')'] + rest;
    } else {
      assert (a + ([')'] + rest))[1..] == a[1..] + ([')'] + rest);
      UpToCloseConcat(a[1..], rest);
    }
  }

  /** Soundness: a match yields well-formed groups, and the line is the
      matched text followed by whatever came after the `)`. */
  lemma MatchSound(line: string)
    requires Match(line).Some?
    ensures WellFormed(Match(line).value)
    ensures var c := Match(line).value;
      |CallText(c)| <= |line| && line == CallText(c) + line[|CallText(c)|..]
  {
    var cls := WordChars(line);
    assert |cls| < |line| && line[|cls|] == '.';
    var rest := line[|cls| + 1..];
    assert Match(line) == MatchMethod(cls, rest);
    var m := WordChars(rest);
    assert m != [] && |m| < |rest| && rest[|m|] == '(';
    var tail := rest[|m| + 1..];
    assert MatchMethod(cls, rest) == MatchArgs(cls, m, tail);
    var a := UpToClose(tail);
    assert Match(line).value == Call(cls, m, a);
    WordCharsPrefix(line);
    WordCharsPrefix(rest);
    MatchedText(line, cls, rest, m, tail, a);
  }

  lemma MatchedText(line: string, cls: string, rest: string, m: string, tail: string, a: string)
    requires |cls| < |line| && line[..|cls|] == cls && line[|cls|] == '.' && rest == line[|cls| + 1..]
    requires |m| < |rest| && rest[..|m|] == m && rest[|m|] == '(' && tail == rest[|m| + 1..]
    requires a == UpToClose(tail) && |a| < |tail|
    ensures var n := |CallText(Call(cls, m, a))|;
      n <= |line| && line == CallText(Call(cls, m, a)) + line[n..]
  {
    UpToClosePrefix(tail);
    var after := tail[|a| + 1..];
    Glue(line, cls, '.', rest);
    Glue(rest, m, '(', tail);
    Glue(tail, a, ')', after);
    Reassociate(cls, ['.'], m, ['('], a, [')'], after);
    var n := |CallText(Call(cls, m, a))|;
    assert line[n..] == after;
  }

  /** The element after a prefix `x` of `x + ([c] + y)` is `c`, and `y`
      follows it. */
  lemma Unglue<T>(s: seq<T>, x: seq<T>, c: T, y: seq<T>)
    requires s == x + ([c] + y)
    ensures |x| < |s| && s[|x|] == c && s[|x| + 1..] == y
  {
  }

  /** `Match` read backwards: pieces that satisfy each step of the
      recogniser give its answer. */
  lemma MatchOfParts(line: string, cls: string, rest: string, m: string, tail: string, a: string)
    requires WordChars(line) == cls && |cls| < |line| && line[|cls|] == '.' && rest == line[|cls| + 1..]
    requires WordChars(rest) == m && m != [] && |m| < |rest| && rest[|m|] == '(' && tail == rest[|m| + 1..]
    requires UpToClose(tail) == a && |a| < |tail|
    ensures Match(line) == Some(Call(cls, m, a))
  {
    assert Match(line) == MatchMethod(cls, rest);
    MethodOfParts(cls, rest, m, tail, a);
  }

  /** The step after the dot, read backwards. */
  lemma MethodOfParts(cls: string, rest: string, m: string, tail: string, a: string)
    requires WordChars(rest) == m && m != [] && |m| < |rest| && rest[|m|] == '(' && tail == rest[|m| + 1..]
    requires UpToClose(tail) == a && |a| < |tail|
    ensures MatchMethod(cls, rest) == Some(Call(cls, m, a))
  {
    assert MatchMethod(cls, rest) == MatchArgs(cls, m, tail);
    assert MatchArgs(cls, m, tail) == Some(Call(cls, m, a));
  }

  /** Completeness: every well-formed call at the start of a line is
      recognised, with exactly its groups, whatever follows it. */
  lemma MatchComplete(c: Call, after: string)
    requires WellFormed(c)
    ensures Match(CallText(c) + after) == Some(c)
  {
    var line := CallText(c) + after;
    var tail := c.args + ([')'] + after);
    var rest := c.methodName + (['('] + tail);
    Reassociate(c.className, ['.'], c.methodName, ['('], c.args, [')'], after);
    Unglue(line, c.className, '.', rest);
    WordCharsConcat(c.className, ['.'] + rest);
    Unglue(rest, c.methodName, '(', tail);
    WordCharsConcat(c.methodName, ['('] + tail);
    Unglue(tail, c.args, ')', after);
    UpToCloseConcat(c.args, after);
    MatchOfParts(line, c.className, rest, c.methodName, tail, c.args);
  }

  /** A line made of a word, optionally followed by a space and a second
      word, has no dot after its first word and so is not a dotted call. */
  lemma RewrittenNeverMatches(verb: string, className: string)
    requires AllWordChars(verb) && AllWordChars(className)
    ensures Match(verb) == None
    ensures Match(verb + " " + className) == None
  {
    WordCharsConcat(verb, []);
    assert verb + [] == verb;
    WordCharsConcat(verb, " " + className);
    assert verb + " " + className == verb + (" " + className);
  }
}

=== FILE: optional.dfy ===
/** A value that may be absent: Python's `None` versus a present value. */
module Optional {

  datatype Option<+T> = None | Some(value: T)

}

=== FILE: pytext.dfy ===
/** The three forms of Python string splitting the console relies on:
    `s.split()` (runs of whitespace), `s.split(maxsplit=n)` (at most n cuts,
    the remainder kept whole) and `s.split(sep)` for a one-character
    separator (every occurrence cuts, empty pieces kept). */
module PyText {

  /** Python's whitespace for `str.split()` and `str.strip()`: the
      characters for which `str.isspace()` holds (tab through carriage
      return, the four information separators, space, NEL, no-break space,
      and the Unicode space and line/paragraph separators). */
  predicate IsSpace(c: char) {
    || '\t' <= c <= '\r'
    || '\U{1C}' <= c <= ' '
    || c == '\U{85}' || c == '\U{A0}' || c == '\U{1680}'
    || '\U{2000}' <= c <= '\U{200A}'
    || c == '\U{2028}' || c == '\U{2029}' || c == '\U{202F}' || c == '\U{205F}' || c == '\U{3000}'
  }

  /** No character of `s` is whitespace. */
  predicate NoSpace(s: string) {
    forall i | 0 <= i < |s| :: !IsSpace(s[i])
  }

  /** A token of `s.split()`: non-empty and free of whitespace. */
  predicate IsWord(w: string) {
    w != [] && NoSpace(w)
  }

  function Min(a: int, b: int): int {
    if a <= b then a else b
  }

  /** `s.lstrip()`: the suffix of `s` after its leading whitespace. */
  function LStrip(s: string): (r: string)
    ensures |r| <= |s|
    ensures r == [] || !IsSpace(r[0])
    decreases |s|
  {
    if s != [] && IsSpace(s[0]) then LStrip(s[1..]) else s
  }

  /** `s.lstrip()` is a suffix of `s`. */
  lemma {:induction false} LStripSuffix(s: string)
    ensures LStrip(s) == s[|s| - |LStrip(s)|..]
    decreases |s|
  {
    if s != [] && IsSpace(s[0]) {
      LStripSuffix(s[1..]);
    }
  }

  /** The longest prefix of `s` holding no whitespace. */
  function WordAt(s: string): (r: string)
    ensures |r| <= |s|
    ensures NoSpace(r)
    ensures |r| < |s| ==> IsSpace(s[|r|])
    decreases |s|
  {
    if s == [] || IsSpace(s[0]) then [] else [s[0]] + WordAt(s[1..])
  }

  /** `s.split()`: the maximal runs of non-whitespace of `s`, in order. */
  function Split(s: string): (r: seq<string>)
    ensures forall i | 0 <= i < |r| :: IsWord(r[i])
    decreases |s|
  {
    var t := LStrip(s);
    if t == [] then []
    else
      var w := WordAt(t);
      [w] + Split(t[|w|..])
  }

  /** `s.split(maxsplit=n)`: the first `n` tokens of `s.split()`, then
      (when more text follows) the rest of `s` from the next token on,
      kept whole. */
  function SplitMax(s: string, n: nat): (r: seq<string>)
    ensures |r| <= n + 1
    decreases |s|
  {
    var t := LStrip(s);
    if t == [] then []
    else
      var w := WordAt(t);
      if n == 0 then [t]
      else [w] + SplitMax(t[|w|..], n - 1)
  }

  /** `s.split(sep)`: the pieces of `s` between occurrences of `sep`,
      empty pieces included; `"".split(sep)` is `[""]`. */
  function SplitOn(s: string, sep: char): (r: seq<string>)
    ensures |r| >= 1
    ensures forall i | 0 <= i < |r| :: sep !in r[i]
    decreases |s|
  {
    if s == [] then [[]]
    else
      var rest := SplitOn(s[1..], sep);
      if s[0] == sep then [[]] + rest
      else [[s[0]] + rest[0]] + rest[1..]
  }

  /** `sep.join(ps)`. */
  function JoinOn(ps: seq<string>, sep: char): string
    requires |ps| >= 1
  {
    if |ps| == 1 then ps[0] else ps[0] + [sep] + JoinOn(ps[1..], sep)
  }

  /** Words joined by single spaces: `" ".join(ws)`. */
  function JoinSpace(ws: seq<string>): string {
    if ws == [] then [] else JoinOn(ws, ' ')
  }

  lemma SuffixOfSuffix<T>(a: seq<T>, b: seq<T>, c: seq<T>)
    requires |a| <= |b| && a == b[|b| - |a|..]
    requires |b| <= |c| && b == c[|c| - |b|..]
    ensures a == c[|c| - |a|..]
  {
  }

  lemma DropAfterCons<T>(x: T, xs: seq<T>, n: nat)
    requires 1 <= n <= |xs| + 1
    ensures ([x] + xs)[n..] == xs[n - 1..]
  {
  }

  /* ---------------------------------------------------------------------- */
  /* Facts about `split()` and `split(maxsplit=n)`                           */
  /* ---------------------------------------------------------------------- */

  /** `s.split()` is empty exactly when `s` is all whitespace; in particular
      a stripped, non-empty argument always has a first token. */
  lemma {:induction false} SplitEmptyIff(s: string)
    ensures Split(s) == [] <==> forall i | 0 <= i < |s| :: IsSpace(s[i])
    decreases |s|
  {
    if s != [] && IsSpace(s[0]) {
      SplitEmptyIff(s[1..]);
      assert LStrip(s) == LStrip(s[1..]);
      assert Split(s) == Split(s[1..]);
      if forall i | 0 <= i < |s[1..]| :: IsSpace(s[1..][i]) {
        forall i | 0 <= i < |s| ensures IsSpace(s[i]) {
          if i > 0 { assert s[i] == s[1..][i - 1]; }
        }
      }
    } else if s != [] {
      assert LStrip(s) == s;
    }
  }

  /** The longest whitespace-free prefix of `w + rest` is `w` when `w` has no
      whitespace and `rest` is empty or starts with whitespace. */
  lemma {:induction false} WordAtConcat(w: string, rest: string)
    requires NoSpace(w)
    requires rest == [] || IsSpace(rest[0])
    ensures WordAt(w + rest) == w
    decreases |w|
  {
    if w == [] {
      assert w + rest == rest;
    } else {
      assert (w + rest)[1..] == w[1..] + rest;
      WordAtConcat(w[1..], rest);
    }
  }

  /** Leading whitespace is dropped by `split()`. */
  lemma SplitSkipsSpace(c: char, rest: string)
    requires IsSpace(c)
    ensures Split([c] + rest) == Split(rest)
  {
    assert ([c] + rest)[1..] == rest;
    assert LStrip([c] + rest) == LStrip(rest);
  }

  /** A word followed by a space and more text splits into that word and
      the tokens of the rest. */
  lemma SplitWordThen(w: string, rest: string)
    requires IsWord(w)
    ensures Split(w + " " + rest) == [w] + Split(rest)
  {
    var s := w + " " + rest;
    assert s == w + ([' '] + rest);
    assert LStrip(s) == s;
    WordAtConcat(w, [' '] + rest);
    assert s[|w|..] == [' '] + rest;
    assert Split(s) == [w] + Split([' '] + rest);
    SplitSkipsSpace(' ', rest);
  }

  /** A single word splits into itself. */
  lemma SplitWord(w: string)
    requires IsWord(w)
    ensures Split(w) == [w]
  {
    assert LStrip(w) == w;
    WordAtConcat(w, []);
    assert w + [] == w;
    assert w[|w|..] == [];
  }

  /** Round trip: splitting words joined by single spaces gives the words
      back. */
  lemma {:induction false} SplitJoinSpace(ws: seq<string>)
    requires forall i | 0 <= i < |ws| :: IsWord(ws[i])
    ensures Split(JoinSpace(ws)) == ws
    decreases |ws|
  {
    if ws == [] {
      assert JoinSpace(ws) == [];
    } else if |ws| == 1 {
      SplitWord(ws[0]);
    } else {
      SplitJoinSpace(ws[1..]);
      assert JoinSpace(ws) == ws[0] + " " + JoinSpace(ws[1..]);
      SplitWordThen(ws[0], JoinSpace(ws[1..]));
    }
  }

  /** `split(maxsplit=n)` gives as many pieces as `split()` gives tokens,
      but at most `n + 1`, and each piece before the last cut is the
      corresponding token. */
  lemma {:induction false} SplitMaxTokens(s: string, n: nat)
    ensures |SplitMax(s, n)| == Min(|Split(s)|, n + 1)
    ensures forall i | 0 <= i < |SplitMax(s, n)| && i < n :: SplitMax(s, n)[i] == Split(s)[i]
    decreases |s|
  {
    var t := LStrip(s);
    if t != [] {
      var w := WordAt(t);
      var u := t[|w|..];
      assert Split(s) == [w] + Split(u);
      if n > 0 {
        SplitMaxTokens(u, n - 1);
        assert SplitMax(s, n) == [w] + SplitMax(u, n - 1);
      }
    }
  }

  /** `last` is a non-empty suffix of `s` starting at a non-space. */
  predicate RestOf(s: string, last: string) {
    && last != [] && !IsSpace(last[0])
    && |last| <= |s| && last == s[|s| - |last|..]
  }

  /** A rest of a suffix of `s.lstrip()` is a rest of `s`. */
  lemma RestOfStripped(s: string, u: string, last: string)
    requires |u| <= |LStrip(s)| && u == LStrip(s)[|LStrip(s)| - |u|..]
    requires RestOf(u, last)
    ensures RestOf(s, last)
  {
    LStripSuffix(s);
    RestOfSuffix(s, LStrip(s), u, last);
  }

  /** A rest of a suffix of a suffix of `s` is a rest of `s`. */
  lemma RestOfSuffix(s: string, t: string, u: string, last: string)
    requires |t| <= |s| && t == s[|s| - |t|..]
    requires |u| <= |t| && u == t[|t| - |u|..]
    requires RestOf(u, last)
    ensures RestOf(s, last)
  {
    SuffixOfSuffix(last, u, t);
    SuffixOfSuffix(last, t, s);
  }

  /** When `split(maxsplit=n)` yields its full `n + 1` pieces, the last
      piece is a suffix of `s` that starts at a token: the rest of the line
      kept whole. */
  lemma {:induction false} SplitMaxRestSuffix(s: string, n: nat)
    requires |SplitMax(s, n)| == n + 1
    ensures RestOf(s, SplitMax(s, n)[n])
    decreases |s|
  {
    var t := LStrip(s);
    if n == 0 {
      assert SplitMax(s, 0) == [t];
      RestOfStripped(s, t, t);
    } else {
      var w := WordAt(t);
      var u := t[|w|..];
      var tail := SplitMax(u, n - 1);
      assert SplitMax(s, n) == [w] + tail;
      SplitMaxRestSuffix(u, n - 1);
      RestOfStripped(s, u, tail[n - 1]);
    }
  }

  /** When `split(maxsplit=n)` yields its full `n + 1` pieces, the tokens
      of the last piece are exactly the tokens of `s.split()` after the
      first `n`. */
  lemma {:induction false} SplitMaxRestTokens(s: string, n: nat)
    requires |SplitMax(s, n)| == n + 1
    ensures n < |Split(s)|
    ensures Split(SplitMax(s, n)[n]) == Split(s)[n..]
    decreases |s|
  {
    SplitMaxTokens(s, n);
    var t := LStrip(s);
    var w := WordAt(t);
    var u := t[|w|..];
    var rest := Split(u);
    assert Split(s) == [w] + rest;
    if n == 0 {
      assert Split(t) == Split(s);
    } else {
      assert SplitMax(s, n) == [w] + SplitMax(u, n - 1);
      SplitMaxRestTokens(u, n - 1);
      DropAfterCons(w, rest, n);
    }
  }

  /** `split(maxsplit=n + 1)` of a word, a space and more text is that word
      followed by `split(maxsplit=n)` of the rest. */
  lemma SplitMaxWordThen(w: string, rest: string, n: nat)
    requires IsWord(w)
    ensures SplitMax(w + " " + rest, n + 1) == [w] + SplitMax(rest, n)
  {
    var s := w + " " + rest;
    assert s == w + ([' '] + rest);
    assert LStrip(s) == s;
    WordAtConcat(w, [' '] + rest);
    assert s[|w|..] == [' '] + rest;
    assert SplitMax(s, n + 1) == [w] + SplitMax([' '] + rest, n);
    assert ([' '] + rest)[1..] == rest;
    assert LStrip([' '] + rest) == LStrip(rest);
  }

  /* ---------------------------------------------------------------------- */
  /* Facts about `split(sep)`                                                */
  /* ---------------------------------------------------------------------- */

  /** Round trip: `sep.join(s.split(sep)) == s`. */
  lemma {:induction false} JoinSplitOn(s: string, sep: char)
    ensures JoinOn(SplitOn(s, sep), sep) == s
    decreases |s|
  {
    if s != [] {
      var rest := SplitOn(s[1..], sep);
      JoinSplitOn(s[1..], sep);
      if s[0] == sep {
        assert SplitOn(s, sep) == [[]] + rest;
        JoinOnCons([], rest, sep);
      } else {
        JoinOnPrepend(s[0], rest, sep);
      }
      assert [s[0]] + s[1..] == s;
    }
  }

  /** `sep.join([x] + ps) == x + sep + sep.join(ps)`. */
  lemma JoinOnCons(x: string, ps: seq<string>, sep: char)
    requires |ps| >= 1
    ensures JoinOn([x] + ps, sep) == x + [sep] + JoinOn(ps, sep)
  {
    assert ([x] + ps)[1..] == ps;
  }

  /** A character put in front of the first piece is put in front of the
      joined text. */
  lemma JoinOnPrepend(c: char, ps: seq<string>, sep: char)
    requires |ps| >= 1
    ensures JoinOn([[c] + ps[0]] + ps[1..], sep) == [c] + JoinOn(ps, sep)
  {
    if |ps| > 1 {
      JoinOnCons([c] + ps[0], ps[1..], sep);
      JoinOnCons(ps[0], ps[1..], sep);
      assert [ps[0]] + ps[1..] == ps;
    }
  }

  /** A piece free of `sep` followed by `sep` starts a new piece. */
  lemma {:induction false} SplitOnCut(a: string, b: string, sep: char)
    requires sep !in a
    ensures SplitOn(a + [sep] + b, sep) == [a] + SplitOn(b, sep)
    decreases |a|
  {
    if a == [] {
      assert a + [sep] + b == [sep] + b;
      assert ([sep] + b)[1..] == b;
    } else {
      assert (a + [sep] + b)[1..] == a[1..] + [sep] + b;
      SplitOnCut(a[1..], b, sep);
      assert a == [a[0]] + a[1..];
    }
  }

  /** Text free of `sep` is a single piece. */
  lemma {:induction false} SplitOnWhole(a: string, sep: char)
    requires sep !in a
    ensures SplitOn(a, sep) == [a]
    decreases |a|
  {
    if a != [] {
      SplitOnWhole(a[1..], sep);
      assert a == [a[0]] + a[1..];
    }
  }

  /** Round trip: `sep.join(ps).split(sep) == ps` when no piece contains
      `sep`. */
  lemma {:induction false} SplitOnJoin(ps: seq<string>, sep: char)
    requires |ps| >= 1
    requires forall i | 0 <= i < |ps| :: sep !in ps[i]
    ensures SplitOn(JoinOn(ps, sep), sep) == ps
    decreases |ps|
  {
    if |ps| == 1 {
      SplitOnWhole(ps[0], sep);
    } else {
      SplitOnJoin(ps[1..], sep);
      SplitOnCut(ps[0], JoinOn(ps[1..], sep), sep);
    }
  }

  /** The last piece of `s.split(sep)` is empty exactly when `s` is empty
      or ends with `sep`. */
  lemma {:induction false} SplitOnLastEmpty(s: string, sep: char)
    ensures var ps := SplitOn(s, sep);
      ps[|ps| - 1] == [] <==> s == [] || s[|s| - 1] == sep
    decreases |s|
  {
    if s != [] {
      var t := s[1..];
      SplitOnLastEmpty(t, sep);
      var ps := SplitOn(s, sep);
      var rest := SplitOn(t, sep);
      if t != [] {
        assert s[|s| - 1] == t[|t| - 1];
        SplitOnNonEmpty(t, sep);
      }
      if s[0] == sep {
        assert ps == [[]] + rest;
      } else if |rest| > 1 {
        assert ps == [[s[0]] + rest[0]] + rest[1..];
      } else {
        assert ps == [[s[0]] + rest[0]];
      }
    }
  }

  /** A non-empty text does not split into one empty piece. */
  lemma SplitOnNonEmpty(s: string, sep: char)
    requires s != []
    ensures SplitOn(s, sep) != [[]]
  {
    if s[0] == sep {
      assert |SplitOn(s, sep)| >= 2;
    } else {
      assert SplitOn(s, sep)[0] != [];
    }
  }

  /** The first piece of `s.split(sep)` is the text before the first `sep`
      (all of `s` when there is none). */
  lemma {:induction false} SplitOnFirst(s: string, sep: char)
    ensures var p := SplitOn(s, sep)[0];
      && |p| <= |s| && p == s[..|p|]
      && sep !in p
      && (|p| < |s| ==> s[|p|] == sep)
    decreases |s|
  {
    if s != [] {
      SplitOnFirst(s[1..], sep);
    }
  }

  /** The number of occurrences of `c` in `s` (Python's `s.count(c)`). */
  function Count(s: string, c: char): nat {
    if s == [] then 0 else (if s[0] == c then 1 else 0) + Count(s[1..], c)
  }

  /** `s.split(sep)` has one more piece than `s` has occurrences of `sep`. */
  lemma {:induction false} SplitOnCount(s: string, sep: char)
    ensures |SplitOn(s, sep)| == Count(s, sep) + 1
    decreases |s|
  {
    if s != [] {
      SplitOnCount(s[1..], sep);
    }
  }
}
